=== FILE: README.md ===
# csi-secret-injector core, modelled in Dafny

This project models the two components at the heart of the csi-secret-injector
admission controller and proves properties about them.

1. **The mutation engine** (`Mutate`). It receives a decoded admission review
   for a Pod. When the Pod carries the `xcxc.dev/csi-secret-class` annotation,
   the engine answers with a JSON Patch (RFC 6902). The patch appends a CSI
   volume named `secret-store` (driver `secrets-store.csi.k8s.io`) and a
   read-only mount of it at `/mnt/secret-store` on the target container. Each
   operation is emitted only if that volume or mount is missing. The target
   container is picked by the `xcxc.dev/csi-secret-container` annotation.
2. **The certificate authority** (`CertConfig`). It is a two-state lifecycle:
   first no CA, then a CA. The root is generated once and is self-signed. Leaf
   certificates are issued for the service names `name`, `name.namespace` and
   `name.namespace.svc`, and are signed by the root.

Layout, one module per file:

- `wrappers.dfy` (`Wrappers`): `Option`.
- `decimal.dfy` (`Decimal`): `%d` rendering of an index, and reading it back as
  an array index under section 4 of RFC 6901.
- `admission.dfy` (`Admission`): Pod subset, patch operations, review envelope.
- `patch_apply.dfy` (`PatchApply`): the patch paths, and JSON Patch `add`
  (section 4.1 of RFC 6902) on the Pod model, used to state idempotence.
- `mutate.dfy` (`Mutation`): the engine in `pkg/mutate/mutate.go`.
- `mutate_properties.dfy` (`MutateProperties`): idempotence and worked scenarios.
- `cert.dfy` (`Cert`): the CA in `pkg/cert/cert.go`.
- `cert_properties.dfy` (`CertProperties`): runs of calls on one configuration,
  the certificate chain, and the common name's labels.

How the model abstracts the source:

- JSON decoding is abstract. A body is either undecodable or a review whose
  request may be absent. A request's raw object is either an undecodable Pod
  or a decoded `Pod` record.
- The JSON-encoded patch is kept as the sequence of operations it encodes. An
  empty sequence stands for the omitted `patch` field.
- Cryptography is opaque. A private key is a handle. The outcome of each RSA
  key generation, and whether each x509 creation succeeds, are parameters. A
  created certificate is the term `SignedCert(template, parent, subjectKey,
  signer)`, so "self-signed" and "issued by the CA" are statable.

Behaviours of the code that the model keeps:

- On a fresh configuration the CA template is stored before the key is
  generated (`pkg/cert/cert.go:33`). The CA therefore counts as created whatever
  happens afterwards.
- A failed certificate creation is printed and swallowed. `GenerateCACert` then
  returns a PEM block with no bytes and a nil error (`pkg/cert/cert.go:53-64`).
  The same holds for the leaf certificate (`pkg/cert/cert.go:101-104`).
- A failed key generation leaves a nil key. The next line takes
  `&key.PublicKey` (`pkg/cert/cert.go:53`, `pkg/cert/cert.go:101`), which is a
  nil dereference, so the call panics rather than returning. The model reports
  this as `CaPanic` / `ServerPanic`, together with the configuration left
  behind (CA template set, no key). A later `GenerateServerCert` on that
  configuration passes the nil CA key to certificate creation, which also
  dereferences it. The model reports that call as `ServerPanic` too.
- There are two states, no CA and CA present. Issuing a leaf changes
  nothing, so leaves can be issued repeatedly.
- The annotation keys are `xcxc.dev/csi-secret-class` and
  `xcxc.dev/csi-secret-container`.
- The container loop has no `break`, so the last container with a matching
  name wins. A missing, empty or unmatched `secret-container` value falls back
  to index 0, even when the Pod has no containers.
- `result = Success` is set whenever the secret class is non-empty, even when
  the patch is empty. The volume and mount scans run before the class check;
  this makes no observable difference.

## Model

| member | source | states |
|---|---|---|
| `Mutation.Mutate` | pkg/mutate/mutate.go:37-178 | An undecodable review or an undecodable Pod fails with a decode error and no body. A review without a request succeeds with an empty body, and only that input does. Every decoded request is answered with `allowed` set, its uid echoed, and the request itself in the body. The response is the one `Respond` computes for that uid and Pod, so its patch, patch type and result follow `Respond`'s contract. |
| `Mutation.Respond` | pkg/mutate/mutate.go:63-163 | Always allows and echoes the uid. With no or an empty secret class there is no patch, no patch type and no result. Otherwise the result is `Success`. The patch type is present iff the patch is non-empty. The patch has at most two ops, all `add`. The volume op (with the class as `secretProviderClass`) appears iff no volume is named `secret-store`. The mount op on the target appears iff the target has no `secret-store` mount. Nothing else appears, and with two ops the volume op comes first. |
| `Mutation.Annotation` | pkg/mutate/mutate.go:66-72 | A missing annotation and an empty one read alike, as the empty string. A non-empty value is the annotation's value. |
| `Mutation.VolumeOp` | pkg/mutate/mutate.go:108-121 | An `add` at `/spec/volumes/-` of a volume named `secret-store`: CSI driver `secrets-store.csi.k8s.io`, read-only, with `secretProviderClass` set to the class and no other attribute. |
| `Mutation.MountOp` | pkg/mutate/mutate.go:127-136 | An `add` whose path addresses the mounts of container `t`, never the volumes path. Its value is the mount `secret-store` at `/mnt/secret-store`, read-only. |
| `Mutation.BuildPatch` | pkg/mutate/mutate.go:104-138 | One op per missing item. The volume op is present iff the volume is missing, and then comes first. The mount op is present iff the mount is missing, and then comes last. |
| `Mutation.TargetIndex` | pkg/mutate/mutate.go:77-92 | The index of the last container whose name equals a non-empty `secret-container` value, otherwise 0. It is within bounds whenever there are containers. |
| `Mutation.ScanTarget` | pkg/mutate/mutate.go:88-92 | The selection loop from index `i` on: the last later match overwrites the index chosen so far, which is kept when nothing matches. |
| `Mutation.HasVolume` | pkg/mutate/mutate.go:80-85 | True iff some volume is named `secret-store`. Only the name is compared. |
| `Mutation.HasMount` | pkg/mutate/mutate.go:94-98 | True iff some mount in the list is named `secret-store`. |
| `Mutation.ScanMounts` | pkg/mutate/mutate.go:93-99 | True iff the target index is a container that mounts `secret-store`. Mounts on other containers are ignored. |
| `Decimal.FromNat` | pkg/mutate/mutate.go:130 | `%d` writes a non-empty digit string with no leading zero, starting with `0` only for 0. |
| `Decimal.ToNatFromNat` | pkg/mutate/mutate.go:130 | Reading the written index back as an RFC 6901 array index gives the index. |
| `Decimal.FromNatToNat` | pkg/mutate/mutate.go:130 | Every RFC 6901 array index text is exactly what `%d` writes for its value. |
| `PatchApply.MountsPath` | pkg/mutate/mutate.go:130 | The mount path starts with `/spec/containers/` and ends with `/volumeMounts/-`. Between them is a valid RFC 6901 array index. It is longer than the volumes path. |
| `PatchApply.MountsPathRoundTrip` | pkg/mutate/mutate.go:130 | The mount path built for index `i` addresses container `i`, and it is never the volumes path. |
| `PatchApply.MountsPathCanonical` | pkg/mutate/mutate.go:130 | A path that addresses some container's mounts is exactly the path the engine builds for that index. |
| `MutateProperties.TargetFollowsNames` | pkg/mutate/mutate.go:88-92 | The target choice depends only on the container names. |
| `MutateProperties.MountOpRejected` | pkg/mutate/mutate.go:77 | A mount op at an index with no container (the fallback 0 on a Pod without containers) cannot be applied. |
| `MutateProperties.PatchApplies` | pkg/mutate/mutate.go:104-138 | Under the model's `add`, which treats a missing array as empty, the emitted patch fails to apply exactly when the Pod has a secret class and no containers. |
| `MutateProperties.PatchEstablishes` | pkg/mutate/mutate.go:104-138 | Applying the patch keeps the annotations and container names. Afterwards a `secret-store` volume exists and the target container mounts it. |
| `MutateProperties.Idempotent` | pkg/mutate/mutate.go:104-159 | After the patch is applied, the engine's answer for the patched Pod has an empty patch and the same result. |
| `MutateProperties.ResubmitPatched` | pkg/mutate/mutate.go:37-178 | Resubmitting the patched Pod in a review succeeds, with neither a patch nor a patch type. |
| `MutateProperties.FullPatch` | pkg/mutate/mutate.go:104-138 | With a secret class, and neither the volume nor the target mount present, the patch is exactly the volume op followed by the mount op for the target container. |
| `MutateProperties.ScenarioSingleContainer` | pkg/mutate/mutate.go:107-138 | Class `vault-prod`, no volumes, one container `app`: the patch is the volume op, then a mount op at `/spec/containers/0/volumeMounts/-`. |
| `MutateProperties.ScenarioNamedContainer` | pkg/mutate/mutate.go:88-92 | With containers `sidecar` and `app` and target `app`, the mount op is at `/spec/containers/1/volumeMounts/-`. |
| `MutateProperties.ScenarioUnknownContainer` | pkg/mutate/mutate.go:77-92 | A target name that matches no container puts the mount on container 0; a patch is still produced. |
| `MutateProperties.ScenarioAlreadyPatched` | pkg/mutate/mutate.go:80-99 | A Pod already holding a `secret-store` volume and mount is allowed with no patch, whatever the class and whatever the existing volume's other attributes. |
| `Cert.NewConfig` | pkg/cert/cert.go:16-24 | A configuration as the caller creates it holds no CA and no CA key. |
| `Cert.CaTemplate` | pkg/cert/cert.go:33-44 | The root template is marked CA and has valid basic constraints. Its key usage is exactly digital signature and certificate signing. It is valid for client and server authentication, for the configured organisation. |
| `Cert.GenerateCACert` | pkg/cert/cert.go:27-65 | With a CA already held it returns the "already created" error and leaves the configuration unchanged. On a fresh configuration it stores the CA template. It returns the PEM with a nil error whenever the key was generated, whether or not certificate creation succeeded, and panics iff key generation failed, leaving the CA template set and no key. The PEM holds a certificate iff creation succeeded. That certificate is self-signed (template equals parent), marked CA, and signed with the stored key. |
| `Cert.ErrorMessage` | pkg/cert/cert.go:30 | Each error has its own text: "the CA is already created" for a second root, and "cant generate a server certificate before ca" (`pkg/cert/cert.go:71`) for a leaf without a root. |
| `Cert.CertificatePem` | pkg/cert/cert.go:58-63 | The block is typed `CERTIFICATE`. It holds the created certificate iff creation succeeded; otherwise it is empty. |
| `Cert.CommonName` | pkg/cert/cert.go:74 | The common name is the name, a dot, the namespace and `.svc`, in that order and nothing else. |
| `Cert.LeafTemplate` | pkg/cert/cert.go:81-93 | The leaf template is not a CA. It is for server and client authentication, with digital-signature key usage only, for the configured organisation. Its common name is the service's fully qualified name, and its DNS names are `[name, name.namespace, commonName]`. |
| `Cert.DnsNames` | pkg/cert/cert.go:76-80 | Exactly three names: the name, then `name.namespace`, then the fully qualified common name. Each is a proper prefix of the next, so all three are distinct. |
| `Cert.GenerateServerCert` | pkg/cert/cert.go:68-120 | It never changes the configuration. Without a CA it returns the "no CA" error, and with a CA it never does. It panics exactly when a CA exists and either the server key generation failed or the CA key is missing (the nil key dereferenced at cert.go:101). Once the CA key and server key exist it returns the certificate and key PEM blocks. The certificate has the stored CA as parent, the CA key as signer and the new key as subject key. Its template is exactly the leaf template: not a CA, common name `name.namespace.svc`, DNS names `[name, name.namespace, commonName]`, with the configured organisation and usages. |
| `CertProperties.RunKeepsRoot` | pkg/cert/cert.go:28-31 | Once a CA exists, no sequence of calls changes the configuration, and every root call is refused with "already created". |
| `CertProperties.AtMostOneRoot` | pkg/cert/cert.go:28-33 | In any sequence of calls on one configuration, at most one root call issues a CA, and none does if a CA was already held. |
| `CertProperties.LeafNeedsEarlierRoot` | pkg/cert/cert.go:70-72 | A leaf call fails with "no CA" exactly when the configuration started without a CA and no root call came before it. |
| `CertProperties.LeafChainsToRoot` | pkg/cert/cert.go:33-101 | On a fresh configuration where all crypto succeeds, the root certificate is self-signed and the leaf is issued by it. The leaf's DNS names include the fully qualified service name. |
| `CertProperties.FailedRootCreationStillCreatesCa` | pkg/cert/cert.go:53-64 | When root creation fails, the call still returns an empty PEM block and no error. The CA counts as created, so a second root call is refused. |
| `CertProperties.CommonNameLabels` | pkg/cert/cert.go:74 | For dot-free names, splitting the common name at dots gives exactly the name, the namespace and `svc`. |

## Left out

- JSON encoding and decoding, and the Kubernetes `AdmissionReview` and `Pod` types. These are foreign code. Decoding is a decoded-or-undecodable outcome. Encoding the patch and the review (`pkg/mutate/mutate.go:143-146`, `pkg/mutate/mutate.go:167-170`) is assumed not to fail for these plain records. The text of decode error messages is not modelled.
- RSA key generation, x509 certificate creation, DER marshalling of keys and PEM encoding. These are foreign cryptography, represented by opaque handles, terms and outcome parameters.
- Validity windows (`time.Now()`), logging and the `verbose` flag. Clocks and output do not affect the decisions.
- `main.go`: the HTTP listener, TLS serving, certificate file writes and the handler's responses. This is I/O plumbing around the two components.
- `pkg/kubeclient/client.go`: installing the CA bundle into the webhook registration. It is a network client.
- Pod fields other than annotations, volume names and sources, and container names and mounts. Volume sources other than CSI are collapsed into one case. The status `result` carries only its status string.
- `MutateProperties.PatchApplies`: the condition holds for the model's `add` only. Go's `omitempty` omits empty `volumes` and `volumeMounts` lists, so a Pod without volumes has no `/spec/volumes` field, and RFC 6902 rejects an append to it. The model does not represent an absent field, so the lemma does not cover that failure.
- `PatchApply.ApplyOp` covers only the two `add` targets the engine emits. It does not distinguish an absent JSON array from an empty one. Under RFC 6902, appending to `/spec/volumes` or to a container's `volumeMounts` fails when the field is absent. The model treats a missing field as an empty list.

=== FILE: admission.dfy ===
/**
 * The decoded shapes the mutation engine works on: the subset of a Pod it
 * reads, the JSON Patch operations it writes, and the admission-review
 * envelope around both. JSON decoding itself is abstract: a review or an
 * embedded Pod either decodes to these records or is undecodable.
 */
module Admission {
  import opened Wrappers

  /** A container's volume mount; also the value of an emitted mount operation. */
  datatype VolumeMount = VolumeMount(name: string, mountPath: string, readOnly: bool)

  /** The CSI source of an emitted volume. */
  datatype CsiDrive = CsiDrive(driver: string, readOnly: bool, volumeAttributes: map<string, string>)

  /** The value of an emitted volume operation. */
  datatype Volume = Volume(name: string, csi: CsiDrive)

  /** Where a Pod volume's contents come from; only CSI sources are spelled out. */
  datatype VolumeSource = CsiSource(csi: CsiDrive) | OtherSource

  datatype PodVolume = PodVolume(name: string, source: VolumeSource)

  datatype Container = Container(name: string, volumeMounts: seq<VolumeMount>)

  /** The part of a Pod (metadata annotations and spec) the engine reads. */
  datatype Pod = Pod(annotations: map<string, string>, volumes: seq<PodVolume>, containers: seq<Container>)

  datatype PatchValue = VolumeValue(volume: Volume) | MountValue(mount: VolumeMount)

  /** One JSON Patch operation, `{op, path, value}`. */
  datatype PatchOp = PatchOp(op: string, path: string, value: PatchValue)

  /** The raw object of a request, after the attempt to decode it as a Pod. */
  datatype PodObject = PodDecoded(pod: Pod) | PodUndecodable

  datatype AdmissionRequest = AdmissionRequest(uid: string, rawObject: PodObject)

  datatype PatchType = JsonPatchType

  datatype Status = Status(status: string)

  /** An empty `patch` stands for the absent (omitted) field. */
  datatype AdmissionResponse = AdmissionResponse(
    uid: string,
    allowed: bool,
    patch: seq<PatchOp>,
    patchType: Option<PatchType>,
    result: Option<Status>)

  /** The request body after the attempt to decode it as an admission review. */
  datatype ReviewInput = UndecodableReview | Review(request: Option<AdmissionRequest>)

  /** The response body: nothing at all, or the review with its response attached. */
  datatype ResponseBody = EmptyBody | ReviewBody(request: AdmissionRequest, response: AdmissionResponse)

  datatype MutateError = ReviewDecodeError | PodDecodeError

  datatype MutateResult = Failed(error: MutateError) | Succeeded(body: ResponseBody)
}

=== FILE: cert.dfy ===
/**
 * The certificate authority: a configuration that starts without a CA,
 * generates its self-signed root once, and then issues server (leaf)
 * certificates for the service identity `name.namespace.svc`.
 *
 * Cryptography is opaque. A private key is a handle; each call to (4096-bit)
 * RSA key generation and to x509 certificate creation takes its outcome from a
 * parameter (the randomness and the library are outside the model). A
 * created certificate is the term recording what it was built from: its
 * template, its parent (issuer) template, the subject's public key and the
 * signing key.
 */
module Cert {
  import opened Wrappers

  const CaSerial := 2020
  const LeafSerial := 1658
  const LeafSubjectKeyId: seq<int> := [1, 2, 3, 4, 6]
  const CertificateBlock := "CERTIFICATE"
  const PrivateKeyBlock := "RSA PRIVATE KEY"

  datatype PrivateKey = PrivateKey(id: nat)
  datatype PublicKey = PublicKey(id: nat)

  function PublicOf(k: PrivateKey): PublicKey {
    PublicKey(k.id)
  }

  datatype ExtKeyUsage = ClientAuth | ServerAuth
  datatype KeyUsage = DigitalSignature | CertSign

  /** An x509 certificate template; validity windows are left out. */
  datatype Template = Template(
    serial: nat,
    organization: seq<string>,
    commonName: string,
    dnsNames: seq<string>,
    isCA: bool,
    basicConstraintsValid: bool,
    extKeyUsage: seq<ExtKeyUsage>,
    keyUsage: set<KeyUsage>,
    subjectKeyId: seq<int>)

  /** A certificate as created by the x509 library. */
  datatype SignedCert = SignedCert(template: Template, parent: Template, subjectKey: PublicKey, signer: PrivateKey)

  /** DER contents of a PEM block: nothing (a failed creation), a certificate, or a PKCS #1 key. */
  datatype Der = NoBytes | CertBytes(cert: SignedCert) | KeyBytes(key: PrivateKey)

  datatype PemBlock = PemBlock(blockType: string, bytes: Der)

  /** The outcome of one RSA key generation. */
  datatype KeyGen = Generated(key: PrivateKey) | KeyGenFailed

  /** The configuration: identity fields set by the caller, CA fields set internally. */
  datatype CertConfig = CertConfig(
    name: string,
    namespace: string,
    org: string,
    caCert: Option<Template>,
    caKey: Option<PrivateKey>)

  /** A configuration as the caller creates it: no CA yet. */
  function NewConfig(name: string, namespace: string, org: string): (c: CertConfig)
    ensures !HasCA(c) && c.caKey == None
    ensures c.name == name && c.namespace == namespace && c.org == org
  {
    CertConfig(name, namespace, org, None, None)
  }

  /** The two states of the lifecycle: no CA, then CA present. */
  predicate HasCA(c: CertConfig) {
    c.caCert.Some?
  }

  /** A CA key is only ever stored alongside the CA certificate. */
  predicate Consistent(c: CertConfig) {
    c.caKey.Some? ==> c.caCert.Some?
  }

  datatype CertError = CaAlreadyCreated | NoCaYet

  /** The text of each error; the two texts differ, so a caller can tell them apart. */
  function ErrorMessage(e: CertError): (m: string)
    ensures e == CaAlreadyCreated <==> m == "the CA is already created"
    ensures e == NoCaYet <==> m == "cant generate a server certificate before ca"
  {
    match e
    case CaAlreadyCreated => "the CA is already created"
    case NoCaYet => "cant generate a server certificate before ca"
  }

  /**
   * A call's result: the returned PEM, the returned error, or a panic. A
   * panic stands for the nil dereference that follows a failed key
   * generation; the configuration it leaves behind is still reported.
   */
  datatype CaOutcome = CaPem(pem: PemBlock) | CaError(err: CertError) | CaPanic
  datatype CaStep = CaStep(config: CertConfig, outcome: CaOutcome)

  datatype ServerOutcome = ServerPem(certPem: PemBlock, keyPem: PemBlock) | ServerError(err: CertError) | ServerPanic
  datatype ServerStep = ServerStep(config: CertConfig, outcome: ServerOutcome)

  /** The root template. */
  function CaTemplate(org: string): (t: Template)
    ensures t.isCA && t.basicConstraintsValid
    ensures t.keyUsage == {DigitalSignature, CertSign}
    ensures ClientAuth in t.extKeyUsage && ServerAuth in t.extKeyUsage
    ensures t.organization == [org]
  {
    Template(CaSerial, [org], "", [], true, true, [ClientAuth, ServerAuth], {DigitalSignature, CertSign}, [])
  }

  predicate SelfSigned(sc: SignedCert) {
    sc.template == sc.parent && sc.subjectKey == PublicOf(sc.signer)
  }

  /** `leaf` was signed by the holder of `ca`'s key, naming `ca` as its issuer. */
  predicate IssuedBy(leaf: SignedCert, ca: SignedCert) {
    leaf.parent == ca.template && PublicOf(leaf.signer) == ca.subjectKey
  }

  /** The PEM block of a certificate creation that succeeded or (swallowed) failed. */
  function CertificatePem(created: bool, sc: SignedCert): (b: PemBlock)
    ensures b.blockType == CertificateBlock
    ensures b.bytes.CertBytes? <==> created
    ensures b.bytes.CertBytes? ==> b.bytes.cert == sc
  {
    PemBlock(CertificateBlock, if created then CertBytes(sc) else NoBytes)
  }

  /**
   * Generates the root once. `keyGen` is the outcome of RSA key generation,
   * `created` whether the x509 library created the certificate.
   */
  function GenerateCACert(c: CertConfig, keyGen: KeyGen, created: bool): (r: CaStep)
    ensures HasCA(c) ==> r == CaStep(c, CaError(CaAlreadyCreated))
    ensures HasCA(r.config)
    ensures Consistent(r.config)
    ensures r.config.name == c.name && r.config.namespace == c.namespace && r.config.org == c.org
    ensures !HasCA(c) ==> r.config.caCert == Some(CaTemplate(c.org))
    ensures !HasCA(c) ==> (r.outcome.CaPanic? <==> keyGen.KeyGenFailed?)
    ensures r.outcome.CaPanic? ==> r.config.caKey == None
    ensures !HasCA(c) && keyGen.Generated? ==> r.outcome.CaPem? && r.config.caKey == Some(keyGen.key)
    ensures r.outcome.CaPem? ==> r.outcome.pem.blockType == CertificateBlock
    ensures r.outcome.CaPem? ==> (r.outcome.pem.bytes.CertBytes? <==> created)
    ensures r.outcome.CaPem? && r.outcome.pem.bytes.CertBytes? ==>
              var sc := r.outcome.pem.bytes.cert;
              SelfSigned(sc) && sc.template.isCA
              && Some(sc.template) == r.config.caCert && Some(sc.signer) == r.config.caKey
  {
    if HasCA(c) then CaStep(c, CaError(CaAlreadyCreated))
    else
      var tmpl := CaTemplate(c.org);
      var withCert := c.(caCert := Some(tmpl));
      match keyGen
      case KeyGenFailed => CaStep(withCert.(caKey := None), CaPanic)
      case Generated(k) =>
        var ready := withCert.(caKey := Some(k));
        CaStep(ready, CaPem(CertificatePem(created, SignedCert(tmpl, tmpl, PublicOf(k), k))))
  }

  /** The service's fully qualified name, used as the leaf's common name. */
  function CommonName(name: string, namespace: string): (cn: string)
    ensures |cn| == |name| + |namespace| + 5
    ensures cn[..|name|] == name && cn[|name|] == '.'
    ensures cn[|name| + 1..|cn| - 4] == namespace
    ensures cn[|cn| - 4..] == ".svc"
  {
    name + "." + namespace + ".svc"
  }

  /** The leaf's DNS names: short, namespaced and fully qualified. */
  function DnsNames(name: string, namespace: string): (d: seq<string>)
    ensures |d| == 3 && d[0] == name && d[2] == CommonName(name, namespace)
    ensures d[1] == name + "." + namespace
    ensures d[0] < d[1] < d[2]
  {
    var qualified := name + "." + namespace;
    assert qualified + ".svc" == CommonName(name, namespace);
    [name, qualified, CommonName(name, namespace)]
  }

  /** The leaf template: a non-CA server and client certificate for the service identity. */
  function LeafTemplate(c: CertConfig): (t: Template)
    ensures !t.isCA && t.keyUsage == {DigitalSignature}
    ensures ServerAuth in t.extKeyUsage && ClientAuth in t.extKeyUsage
    ensures t.organization == [c.org]
    ensures t.commonName == CommonName(c.name, c.namespace) && t.commonName in t.dnsNames
    ensures t.dnsNames == [c.name, c.name + "." + c.namespace, t.commonName]
  {
    Template(LeafSerial, [c.org], CommonName(c.name, c.namespace), DnsNames(c.name, c.namespace),
             false, false, [ClientAuth, ServerAuth], {DigitalSignature}, LeafSubjectKeyId)
  }

  /**
   * Issues a server certificate signed by the stored CA. `keyGen` is the
   * outcome of generating the server key, `created` whether the x509
   * library created the certificate.
   */
  function GenerateServerCert(c: CertConfig, keyGen: KeyGen, created: bool): (r: ServerStep)
    ensures r.config == c
    ensures !HasCA(c) ==> r.outcome == ServerError(NoCaYet)
    ensures HasCA(c) ==> !r.outcome.ServerError?
    ensures r.outcome.ServerPanic? <==> HasCA(c) && (keyGen.KeyGenFailed? || c.caKey.None?)
    ensures HasCA(c) && c.caKey.Some? && keyGen.Generated? ==> r.outcome.ServerPem?
    ensures r.outcome.ServerPem? ==>
              && keyGen.Generated?
              && r.outcome.keyPem == PemBlock(PrivateKeyBlock, KeyBytes(keyGen.key))
              && r.outcome.certPem.blockType == CertificateBlock
              && (r.outcome.certPem.bytes.CertBytes? <==> created)
    ensures r.outcome.ServerPem? && r.outcome.certPem.bytes.CertBytes? ==>
              var sc := r.outcome.certPem.bytes.cert;
              && Some(sc.parent) == c.caCert
              && Some(sc.signer) == c.caKey
              && sc.subjectKey == PublicOf(keyGen.key)
              && sc.template == LeafTemplate(c)
  {
    if !HasCA(c) then ServerStep(c, ServerError(NoCaYet))
    else
      match keyGen
      case KeyGenFailed => ServerStep(c, ServerPanic)
      case Generated(k) =>
        match c.caKey
        case None => ServerStep(c, ServerPanic)
        case Some(caKey) =>
          var sc := SignedCert(LeafTemplate(c), c.caCert.value, PublicOf(k), caKey);
          ServerStep(c, ServerPem(CertificatePem(created, sc), PemBlock(PrivateKeyBlock, KeyBytes(k))))
  }
}

=== FILE: cert_properties.dfy ===
/**
 * Properties of the certificate authority across calls: the root is
 * generated at most once, leaves are refused until it exists, a leaf chains
 * to the root, and the leaf's common name spells out the service identity.
 */
module CertProperties {
  import opened Cert

  /** One call on the configuration, with the outcomes of its crypto calls. */
  datatype Call = GenerateRoot(keyGen: KeyGen, created: bool) | IssueLeaf(keyGen: KeyGen, created: bool)

  datatype Reply = RootReply(ca: CaOutcome) | LeafReply(server: ServerOutcome)

  function Apply(c: CertConfig, call: Call): (CertConfig, Reply) {
    match call
    case GenerateRoot(k, ok) =>
      var s := GenerateCACert(c, k, ok);
      (s.config, RootReply(s.outcome))
    case IssueLeaf(k, ok) =>
      var s := GenerateServerCert(c, k, ok);
      (s.config, LeafReply(s.outcome))
  }

  /** Runs the calls in order on one configuration; one reply per call. */
  function Run(c: CertConfig, calls: seq<Call>): (r: (CertConfig, seq<Reply>))
    ensures |r.1| == |calls|
    ensures forall i :: 0 <= i < |calls| ==> (r.1[i].RootReply? <==> calls[i].GenerateRoot?)
    decreases |calls|
  {
    if |calls| == 0 then (c, [])
    else
      var (next, reply) := Apply(c, calls[0]);
      var (last, replies) := Run(next, calls[1..]);
      assert forall i :: 1 <= i < |calls| ==> calls[i] == calls[1..][i - 1];
      (last, [reply] + replies)
  }

  /** A root call that did not fail with the "already created" error. */
  predicate RootIssued(reply: Reply) {
    reply.RootReply? && !reply.ca.CaError?
  }

  /** Once a CA exists, the configuration never changes and every further root call is refused. */
  lemma {:induction false} RunKeepsRoot(c: CertConfig, calls: seq<Call>)
    requires HasCA(c)
    ensures Run(c, calls).0 == c
    ensures forall i :: 0 <= i < |calls| && calls[i].GenerateRoot? ==>
              Run(c, calls).1[i] == RootReply(CaError(CaAlreadyCreated))
    decreases |calls|
  {
    if |calls| > 0 {
      RunKeepsRoot(c, calls[1..]);
      var replies := Run(c, calls).1;
      assert Apply(c, calls[0]).0 == c;
      assert forall i :: 1 <= i < |calls| ==> calls[i] == calls[1..][i - 1] && replies[i] == Run(c, calls[1..]).1[i - 1];
    }
  }

  /** Single CA per configuration: in any run, at most one root call issues a CA. */
  lemma {:induction false} AtMostOneRoot(c: CertConfig, calls: seq<Call>)
    ensures var replies := Run(c, calls).1;
            forall i, j :: 0 <= i < |replies| && 0 <= j < |replies| && RootIssued(replies[i]) && RootIssued(replies[j]) ==> i == j
    ensures HasCA(c) ==> forall i :: 0 <= i < |calls| ==> !RootIssued(Run(c, calls).1[i])
    decreases |calls|
  {
    if HasCA(c) {
      RunKeepsRoot(c, calls);
    } else if |calls| > 0 {
      var (next, reply) := Apply(c, calls[0]);
      var replies := Run(c, calls).1;
      assert forall i :: 1 <= i < |calls| ==> replies[i] == Run(next, calls[1..]).1[i - 1];
      AtMostOneRoot(next, calls[1..]);
      if calls[0].GenerateRoot? {
        assert HasCA(next);
        assert forall i :: 1 <= i < |calls| ==> !RootIssued(replies[i]);
      } else {
        assert next == c;
      }
    }
  }

  /**
   * A leaf call fails with "no CA" exactly when no CA existed at the start
   * and no root call came before it.
   */
  lemma {:induction false} LeafNeedsEarlierRoot(c: CertConfig, calls: seq<Call>)
    ensures forall i :: 0 <= i < |calls| && calls[i].IssueLeaf? ==>
              (Run(c, calls).1[i] == LeafReply(ServerError(NoCaYet))
               <==> !HasCA(c) && forall j :: 0 <= j < i ==> calls[j].IssueLeaf?)
    decreases |calls|
  {
    if |calls| > 0 {
      var (next, reply) := Apply(c, calls[0]);
      var replies := Run(c, calls).1;
      assert forall i :: 1 <= i < |calls| ==> calls[i] == calls[1..][i - 1] && replies[i] == Run(next, calls[1..]).1[i - 1];
      LeafNeedsEarlierRoot(next, calls[1..]);
      if calls[0].GenerateRoot? {
        assert HasCA(next);
      } else {
        assert next == c;
      }
    }
  }

  /**
   * On a fresh configuration whose crypto calls all succeed, the root is
   * self-signed and the leaf is issued by it, for the service's names.
   */
  lemma LeafChainsToRoot(name: string, namespace: string, org: string, caKey: PrivateKey, leafKey: PrivateKey)
    ensures var root := GenerateCACert(NewConfig(name, namespace, org), Generated(caKey), true);
            var leaf := GenerateServerCert(root.config, Generated(leafKey), true);
            && root.outcome.CaPem? && root.outcome.pem.bytes.CertBytes?
            && leaf.outcome.ServerPem? && leaf.outcome.certPem.bytes.CertBytes?
            && SelfSigned(root.outcome.pem.bytes.cert)
            && IssuedBy(leaf.outcome.certPem.bytes.cert, root.outcome.pem.bytes.cert)
            && CommonName(name, namespace) in leaf.outcome.certPem.bytes.cert.template.dnsNames
  {
  }

  /** A failed root certificate creation is swallowed: the CA still counts as created. */
  lemma FailedRootCreationStillCreatesCa(c: CertConfig, caKey: PrivateKey)
    requires !HasCA(c)
    ensures var root := GenerateCACert(c, Generated(caKey), false);
            root.outcome == CaPem(PemBlock(CertificateBlock, NoBytes))
            && HasCA(root.config)
            && GenerateCACert(root.config, Generated(caKey), true).outcome == CaError(CaAlreadyCreated)
  {
  }

  /** Splits at every occurrence of `sep`, as `strings.Split` does. */
  function Split(s: string, sep: char): (parts: seq<string>)
    ensures |parts| > 0
    decreases |s|
  {
    if |s| == 0 then [""]
    else
      var rest := Split(s[1..], sep);
      if s[0] == sep then [""] + rest else [[s[0]] + rest[0]] + rest[1..]
  }

  lemma {:induction false} SplitWithoutSep(a: string, sep: char)
    requires sep !in a
    ensures Split(a, sep) == [a]
    decreases |a|
  {
    if |a| > 0 {
      assert sep !in a[1..];
      SplitWithoutSep(a[1..], sep);
      assert [a[0]] + a[1..] == a;
    }
  }

  lemma {:induction false} SplitAtFirst(a: string, sep: char, b: string)
    requires sep !in a
    ensures Split(a + [sep] + b, sep) == [a] + Split(b, sep)
    decreases |a|
  {
    var s := a + [sep] + b;
    if |a| == 0 {
      assert s[1..] == b;
    } else {
      assert s[1..] == a[1..] + [sep] + b;
      assert sep !in a[1..];
      SplitAtFirst(a[1..], sep, b);
      assert [a[0]] + a[1..] == a;
    }
  }

  /**
   * For dot-free names, the common name's DNS labels are exactly the name,
   * the namespace and "svc": the identity can be read back from it.
   */
  lemma CommonNameLabels(name: string, namespace: string)
    requires '.' !in name && '.' !in namespace
    ensures Split(CommonName(name, namespace), '.') == [name, namespace, "svc"]
  {
    assert CommonName(name, namespace) == name + ['.'] + (namespace + ['.'] + "svc");
    SplitAtFirst(name, '.', namespace + ['.'] + "svc");
    SplitAtFirst(namespace, '.', "svc");
    SplitWithoutSep("svc", '.');
  }
}

=== FILE: decimal.dfy ===
/**
 * Decimal rendering of container indices, as `fmt.Sprintf("%d", i)` writes
 * them into a JSON Pointer, and the inverse reading of an array index
 * (section 4 of RFC 6901: "0" or a non-zero digit followed by digits).
 */
module Decimal {
  import opened Wrappers

  predicate IsDigit(c: char) {
    '0' <= c <= '9'
  }

  predicate AllDigits(s: string) {
    forall i :: 0 <= i < |s| ==> IsDigit(s[i])
  }

  /** An array index as RFC 6901 admits it: non-empty, digits only, no leading zero. */
  predicate IsIndexText(s: string) {
    |s| > 0 && AllDigits(s) && (s[0] == '0' ==> |s| == 1)
  }

  function DigitChar(d: nat): (c: char)
    requires d < 10
    ensures IsDigit(c)
  {
    (('0' as int) + d) as char
  }

  function DigitValue(c: char): (d: nat)
    requires IsDigit(c)
    ensures d < 10
    ensures DigitChar(d) == c
  {
    (c as int) - ('0' as int)
  }

  /** `%d` of a non-negative integer. */
  function FromNat(n: nat): (s: string)
    ensures IsIndexText(s)
    ensures s[0] == '0' <==> n == 0
    decreases n
  {
    if n < 10 then [DigitChar(n)] else FromNat(n / 10) + [DigitChar(n % 10)]
  }

  /** The value a string of digits denotes, most significant digit first. */
  function ValueOf(s: string): nat
    requires AllDigits(s)
  {
    if |s| == 0 then 0 else 10 * ValueOf(s[..|s| - 1]) + DigitValue(s[|s| - 1])
  }

  /** Reads an RFC 6901 array index; anything else is not an index. */
  function ToNat(s: string): (r: Option<nat>)
    ensures r.Some? <==> IsIndexText(s)
  {
    if IsIndexText(s) then Some(ValueOf(s)) else None
  }

  lemma {:induction false} ValueOfFromNat(n: nat)
    ensures ValueOf(FromNat(n)) == n
    decreases n
  {
    if n >= 10 {
      var front := FromNat(n / 10);
      var s := front + [DigitChar(n % 10)];
      assert FromNat(n) == s;
      assert s[..|s| - 1] == front;
      ValueOfFromNat(n / 10);
    }
  }

  /** A digit string whose first digit is not zero denotes a positive number. */
  lemma {:induction false} LeadingDigitPositive(s: string)
    requires |s| > 0 && AllDigits(s) && s[0] != '0'
    ensures ValueOf(s) > 0
    decreases |s|
  {
    if |s| > 1 {
      var front := s[..|s| - 1];
      assert front[0] == s[0];
      LeadingDigitPositive(front);
    } else {
      assert DigitValue(s[0]) != 0;
    }
  }

  lemma {:induction false} FromNatValueOf(s: string)
    requires IsIndexText(s)
    ensures FromNat(ValueOf(s)) == s
    decreases |s|
  {
    var last := DigitValue(s[|s| - 1]);
    if |s| > 1 {
      var front := s[..|s| - 1];
      assert front[0] == s[0];
      LeadingDigitPositive(front);
      FromNatValueOf(front);
      var n := ValueOf(s);
      assert n / 10 == ValueOf(front) && n % 10 == last;
      assert s == front + [s[|s| - 1]];
    }
  }

  /** Reading back what `%d` wrote recovers the index. */
  lemma ToNatFromNat(n: nat)
    ensures ToNat(FromNat(n)) == Some(n)
  {
    ValueOfFromNat(n);
  }

  /** Every index text is what `%d` writes for the index it denotes. */
  lemma FromNatToNat(s: string)
    ensures ToNat(s).Some? ==> FromNat(ToNat(s).value) == s
  {
    if IsIndexText(s) {
      FromNatValueOf(s);
    }
  }
}

=== FILE: mutate.dfy ===
/**
 * The admission mutation engine: from a decoded admission review it picks a
 * target container, checks whether the `secret-store` volume and mount are
 * already there, and answers with a JSON Patch of at most two `add`
 * operations. It never denies a Pod.
 */
module Mutation {
  import opened Wrappers
  import opened Admission
  import opened PatchApply

  const SecretClassAnnotation := "xcxc.dev/csi-secret-class"
  const SecretContainerAnnotation := "xcxc.dev/csi-secret-container"
  const StoreName := "secret-store"
  const CsiDriverName := "secrets-store.csi.k8s.io"
  const StoreMountPath := "/mnt/secret-store"
  const ProviderClassKey := "secretProviderClass"
  const SuccessStatus := "Success"

  /** An annotation's value; a missing key reads as the empty string. */
  function Annotation(pod: Pod, key: string): (v: string)
    ensures v == "" <==> key !in pod.annotations || pod.annotations[key] == ""
    ensures v != "" ==> key in pod.annotations && pod.annotations[key] == v
  {
    if key in pod.annotations then pod.annotations[key] else ""
  }

  // Declarative descriptions of what the scans below compute.

  predicate NamedVolume(vs: seq<PodVolume>, name: string) {
    exists i :: 0 <= i < |vs| && vs[i].name == name
  }

  predicate NamedMount(ms: seq<VolumeMount>, name: string) {
    exists i :: 0 <= i < |ms| && ms[i].name == name
  }

  /** Container `j` is named by a non-empty `secret-container` value `want`. */
  predicate Matches(cs: seq<Container>, want: string, j: int)
    requires 0 <= j < |cs|
  {
    want != "" && cs[j].name == want
  }

  predicate AnyMatch(cs: seq<Container>, want: string) {
    exists j :: 0 <= j < |cs| && Matches(cs, want, j)
  }

  /** `t` is the last matching index, or 0 when no container matches. */
  predicate IsTarget(cs: seq<Container>, want: string, t: nat) {
    if AnyMatch(cs, want) then
      t < |cs| && Matches(cs, want, t) && forall k :: t < k < |cs| ==> !Matches(cs, want, k)
    else t == 0
  }

  /** The target container exists and already mounts the store. */
  predicate TargetMounted(cs: seq<Container>, t: nat) {
    t < |cs| && NamedMount(cs[t].volumeMounts, StoreName)
  }

  /** The scan over the Pod's volumes (it stops at the first match). */
  function HasVolume(vs: seq<PodVolume>): (r: bool)
    ensures r <==> NamedVolume(vs, StoreName)
  {
    if |vs| == 0 then false
    else if vs[0].name == StoreName then true
    else
      assert forall i :: 1 <= i < |vs| ==> vs[i] == vs[1..][i - 1];
      HasVolume(vs[1..])
  }

  function HasMount(ms: seq<VolumeMount>): (r: bool)
    ensures r <==> NamedMount(ms, StoreName)
  {
    if |ms| == 0 then false
    else
      assert forall i :: 1 <= i < |ms| ==> ms[i] == ms[1..][i - 1];
      ms[0].name == StoreName || HasMount(ms[1..])
  }

  /**
   * The selection loop from index `i` on, with `current` the index chosen so
   * far: every later match overwrites it (the loop has no `break`).
   */
  function ScanTarget(cs: seq<Container>, want: string, i: nat, current: nat): (r: nat)
    requires i <= |cs|
    ensures (exists j :: i <= j < |cs| && Matches(cs, want, j)) ==>
              i <= r < |cs| && Matches(cs, want, r) && forall k :: r < k < |cs| ==> !Matches(cs, want, k)
    ensures !(exists j :: i <= j < |cs| && Matches(cs, want, j)) ==> r == current
    decreases |cs| - i
  {
    if i == |cs| then current
    else ScanTarget(cs, want, i + 1, if Matches(cs, want, i) then i else current)
  }

  /** The index of the container that receives the mount. */
  function TargetIndex(cs: seq<Container>, want: string): (t: nat)
    ensures IsTarget(cs, want, t)
    ensures |cs| > 0 ==> t < |cs|
  {
    ScanTarget(cs, want, 0, 0)
  }

  /**
   * The mount scan: walks every container's mounts and only counts a
   * `secret-store` mount found on the target index.
   */
  function ScanMounts(cs: seq<Container>, target: nat, i: nat): (r: bool)
    requires i <= |cs|
    ensures r <==> i <= target && TargetMounted(cs, target)
    decreases |cs| - i
  {
    if i == |cs| then false
    else (HasMount(cs[i].volumeMounts) && target == i) || ScanMounts(cs, target, i + 1)
  }

  /** The operation appending the CSI `secret-store` volume for a provider class. */
  function VolumeOp(secretClass: string): (op: PatchOp)
    ensures op.op == AddOp && op.path == VolumesPath && op.value.VolumeValue?
    ensures op.value.volume.name == StoreName
    ensures op.value.volume.csi.driver == CsiDriverName && op.value.volume.csi.readOnly
    ensures op.value.volume.csi.volumeAttributes == map[ProviderClassKey := secretClass]
  {
    PatchOp(AddOp, VolumesPath,
      VolumeValue(Volume(StoreName, CsiDrive(CsiDriverName, true, map[ProviderClassKey := secretClass]))))
  }

  /** The operation appending the read-only `secret-store` mount to container `t`. */
  function MountOp(t: nat): (op: PatchOp)
    ensures op.op == AddOp && MountsPathIndex(op.path) == Some(t) && op.value.MountValue?
    ensures op.value.mount == VolumeMount(StoreName, StoreMountPath, true)
    ensures op.path != VolumesPath
  {
    MountsPathRoundTrip(t);
    PatchOp(AddOp, MountsPath(t), MountValue(VolumeMount(StoreName, StoreMountPath, true)))
  }

  /** The operations still missing: the volume unless present, then the mount unless present. */
  function BuildPatch(secretClass: string, hasVolume: bool, hasMount: bool, target: nat): (p: seq<PatchOp>)
    ensures |p| == (if hasVolume then 0 else 1) + (if hasMount then 0 else 1)
    ensures VolumeOp(secretClass) in p <==> !hasVolume
    ensures MountOp(target) in p <==> !hasMount
    ensures !hasVolume ==> p[0] == VolumeOp(secretClass)
    ensures !hasMount ==> p[|p| - 1] == MountOp(target)
  {
    (if hasVolume then [] else [VolumeOp(secretClass)])
    + (if hasMount then [] else [MountOp(target)])
  }

  /** The response to a request with uid `uid` whose object decoded to `pod`. */
  function Respond(uid: string, pod: Pod): (r: AdmissionResponse)
    ensures r.allowed && r.uid == uid
    ensures Annotation(pod, SecretClassAnnotation) == "" ==>
              r.patch == [] && r.patchType == None && r.result == None
    ensures Annotation(pod, SecretClassAnnotation) != "" ==> r.result == Some(Status(SuccessStatus))
    ensures r.patchType.Some? <==> r.patch != []
    ensures r.patchType.Some? ==> r.patchType.value == JsonPatchType
    ensures |r.patch| <= 2
    ensures forall k :: 0 <= k < |r.patch| ==> r.patch[k].op == AddOp
    ensures var secretClass := Annotation(pod, SecretClassAnnotation);
            VolumeOp(secretClass) in r.patch <==> secretClass != "" && !NamedVolume(pod.volumes, StoreName)
    ensures var t := TargetIndex(pod.containers, Annotation(pod, SecretContainerAnnotation));
            MountOp(t) in r.patch <==> Annotation(pod, SecretClassAnnotation) != "" && !TargetMounted(pod.containers, t)
    ensures var t := TargetIndex(pod.containers, Annotation(pod, SecretContainerAnnotation));
            forall k :: 0 <= k < |r.patch| ==>
              r.patch[k] == VolumeOp(Annotation(pod, SecretClassAnnotation)) || r.patch[k] == MountOp(t)
    ensures |r.patch| == 2 ==> r.patch[0].path == VolumesPath && r.patch[1].value.MountValue?
  {
    var secretClass := Annotation(pod, SecretClassAnnotation);
    var target := TargetIndex(pod.containers, Annotation(pod, SecretContainerAnnotation));
    var hasVolume := HasVolume(pod.volumes);
    var hasMount := ScanMounts(pod.containers, target, 0);
    if secretClass == "" then
      AdmissionResponse(uid, true, [], None, None)
    else
      var p := BuildPatch(secretClass, hasVolume, hasMount, target);
      AdmissionResponse(uid, true, p, if |p| > 0 then Some(JsonPatchType) else None, Some(Status(SuccessStatus)))
  }

  /** The whole engine, from the decoded body to the response body or an error. */
  function Mutate(input: ReviewInput): (r: MutateResult)
    ensures r.Failed? <==> input.UndecodableReview? || (input.request.Some? && input.request.value.rawObject.PodUndecodable?)
    ensures r.Failed? ==> (r.error == ReviewDecodeError <==> input.UndecodableReview?)
    ensures r == Succeeded(EmptyBody) <==> input == Review(None)
    ensures r.Succeeded? && r.body.ReviewBody? ==>
              input.Review? && input.request == Some(r.body.request)
              && r.body.response.allowed && r.body.response.uid == r.body.request.uid
    ensures input.Review? && input.request.Some? && input.request.value.rawObject.PodDecoded? ==>
              r.Succeeded? && r.body.ReviewBody?
              && r.body.response == Respond(input.request.value.uid, input.request.value.rawObject.pod)
  {
    match input
    case UndecodableReview => Failed(ReviewDecodeError)
    case Review(None) => Succeeded(EmptyBody)
    case Review(Some(req)) =>
      match req.rawObject
      case PodUndecodable => Failed(PodDecodeError)
      case PodDecoded(pod) => Succeeded(ReviewBody(req, Respond(req.uid, pod)))
  }
}

=== FILE: mutate_properties.dfy ===
/**
 * Properties relating several runs of the engine: re-submitting a Pod with
 * its patch applied asks for nothing more, and the worked scenarios of the
 * admission protocol.
 */
module MutateProperties {
  import opened Wrappers
  import opened Decimal
  import opened Admission
  import opened PatchApply
  import opened Mutation

  /** The target choice looks only at container names. */
  lemma {:induction false} TargetFollowsNames(cs: seq<Container>, cs': seq<Container>, want: string)
    requires |cs| == |cs'|
    requires forall i :: 0 <= i < |cs| ==> cs[i].name == cs'[i].name
    ensures TargetIndex(cs, want) == TargetIndex(cs', want)
  {
    assert forall j :: 0 <= j < |cs| ==> (Matches(cs, want, j) <==> Matches(cs', want, j));
    if AnyMatch(cs, want) {
      var j :| 0 <= j < |cs| && Matches(cs, want, j);
      assert Matches(cs', want, j);
    }
  }

  /** The annotation values that drive the engine. */
  function SecretClass(pod: Pod): string {
    Annotation(pod, SecretClassAnnotation)
  }

  function Target(pod: Pod): nat {
    TargetIndex(pod.containers, Annotation(pod, SecretContainerAnnotation))
  }

  /** What holds of the Pod once the engine's patch has been applied. */
  predicate Patched(pod: Pod, pod': Pod) {
    && pod'.annotations == pod.annotations
    && |pod'.containers| == |pod.containers|
    && (forall i :: 0 <= i < |pod.containers| ==> pod'.containers[i].name == pod.containers[i].name)
    && NamedVolume(pod'.volumes, StoreName)
    && TargetMounted(pod'.containers, Target(pod))
  }

  lemma ApplyOne(pod: Pod, a: PatchOp)
    ensures ApplyPatch(pod, [a]) == ApplyOp(pod, a)
  {
    assert [a][1..] == [];
  }

  lemma ApplyTwo(pod: Pod, a: PatchOp, b: PatchOp)
    ensures ApplyPatch(pod, [a, b]) == if ApplyOp(pod, a).None? then None else ApplyOp(ApplyOp(pod, a).value, b)
  {
    assert [a, b][1..] == [b];
    if ApplyOp(pod, a).Some? {
      ApplyOne(ApplyOp(pod, a).value, b);
    }
  }

  lemma VolumeOpAdds(pod: Pod, secretClass: string)
    ensures ApplyOp(pod, VolumeOp(secretClass)).Some?
    ensures NamedVolume(ApplyOp(pod, VolumeOp(secretClass)).value.volumes, StoreName)
  {
    var vs := ApplyOp(pod, VolumeOp(secretClass)).value.volumes;
    assert vs[|vs| - 1].name == StoreName;
  }

  lemma MountOpAdds(pod: Pod, t: nat)
    requires t < |pod.containers|
    ensures ApplyOp(pod, MountOp(t)).Some?
    ensures TargetMounted(ApplyOp(pod, MountOp(t)).value.containers, t)
  {
    MountsPathRoundTrip(t);
    var ms := ApplyOp(pod, MountOp(t)).value.containers[t].volumeMounts;
    assert ms[|ms| - 1].name == StoreName;
  }

  /** A mount operation on a missing container is rejected, as RFC 6902 requires. */
  lemma MountOpRejected(pod: Pod, t: nat)
    requires t >= |pod.containers|
    ensures ApplyOp(pod, MountOp(t)) == None
  {
    MountsPathRoundTrip(t);
  }

  /** Applying a volume operation keeps an existing mount on the target. */
  lemma VolumeOpKeepsMounts(pod: Pod, secretClass: string, t: nat)
    requires TargetMounted(pod.containers, t)
    ensures TargetMounted(ApplyOp(pod, VolumeOp(secretClass)).value.containers, t)
  {
  }

  /**
   * The engine's patch applies exactly when it does not address a missing
   * container: it fails only for a Pod with a secret class and no containers.
   */
  lemma {:induction false} PatchApplies(uid: string, pod: Pod)
    ensures ApplyPatch(pod, Respond(uid, pod).patch).None? <==> SecretClass(pod) != "" && |pod.containers| == 0
  {
    var p := Respond(uid, pod).patch;
    var t := Target(pod);
    if SecretClass(pod) != "" {
      if !NamedVolume(pod.volumes, StoreName) {
        VolumeOpAdds(pod, SecretClass(pod));
        var pod1 := ApplyOp(pod, VolumeOp(SecretClass(pod))).value;
        if |p| == 2 {
          assert p == [VolumeOp(SecretClass(pod)), MountOp(t)];
          ApplyTwo(pod, VolumeOp(SecretClass(pod)), MountOp(t));
          if |pod.containers| > 0 {
            MountOpAdds(pod1, t);
          } else {
            MountOpRejected(pod1, t);
          }
        } else {
          assert p == [VolumeOp(SecretClass(pod))];
          ApplyOne(pod, VolumeOp(SecretClass(pod)));
        }
      } else if |p| == 1 {
        assert p == [MountOp(t)];
        ApplyOne(pod, MountOp(t));
        if |pod.containers| > 0 {
          MountOpAdds(pod, t);
        } else {
          MountOpRejected(pod, t);
        }
      } else {
        assert p == [];
      }
    }
  }

  /** Applying the engine's patch yields a Pod with the volume and the target mount. */
  lemma {:induction false} PatchEstablishes(uid: string, pod: Pod)
    requires SecretClass(pod) != ""
    requires ApplyPatch(pod, Respond(uid, pod).patch).Some?
    ensures Patched(pod, ApplyPatch(pod, Respond(uid, pod).patch).value)
  {
    var p := Respond(uid, pod).patch;
    var t := Target(pod);
    var cls := SecretClass(pod);
    if !NamedVolume(pod.volumes, StoreName) {
      VolumeOpAdds(pod, cls);
      var pod1 := ApplyOp(pod, VolumeOp(cls)).value;
      if TargetMounted(pod.containers, t) {
        assert p == [VolumeOp(cls)];
        ApplyOne(pod, VolumeOp(cls));
        VolumeOpKeepsMounts(pod, cls, t);
      } else {
        assert p == [VolumeOp(cls), MountOp(t)];
        ApplyTwo(pod, VolumeOp(cls), MountOp(t));
        MountOpAdds(pod1, t);
        var pod2 := ApplyOp(pod1, MountOp(t)).value;
        assert pod1.volumes <= pod2.volumes;
        var k :| 0 <= k < |pod1.volumes| && pod1.volumes[k].name == StoreName;
        assert pod2.volumes[k].name == StoreName;
      }
    } else if !TargetMounted(pod.containers, t) {
      assert p == [MountOp(t)];
      ApplyOne(pod, MountOp(t));
      MountOpAdds(pod, t);
      var pod1 := ApplyOp(pod, MountOp(t)).value;
      var k :| 0 <= k < |pod.volumes| && pod.volumes[k].name == StoreName;
      assert pod1.volumes[k].name == StoreName;
    } else {
      assert p == [];
      assert ApplyPatch(pod, p) == Some(pod);
    }
  }

  /**
   * Idempotence: once the patch is applied, running the engine on the
   * patched Pod asks for nothing more (and still reports success).
   */
  lemma Idempotent(uid: string, pod: Pod)
    requires ApplyPatch(pod, Respond(uid, pod).patch).Some?
    ensures var pod' := ApplyPatch(pod, Respond(uid, pod).patch).value;
            Respond(uid, pod').patch == [] && Respond(uid, pod').result == Respond(uid, pod).result
  {
    var pod' := ApplyPatch(pod, Respond(uid, pod).patch).value;
    if SecretClass(pod) != "" {
      PatchEstablishes(uid, pod);
      TargetFollowsNames(pod.containers, pod'.containers, Annotation(pod, SecretContainerAnnotation));
      assert Target(pod') == Target(pod);
    } else {
      assert pod' == pod;
    }
  }

  /** The same, end to end: re-submitting the patched Pod yields a response without a patch. */
  lemma ResubmitPatched(uid: string, pod: Pod)
    requires ApplyPatch(pod, Respond(uid, pod).patch).Some?
    ensures var pod' := ApplyPatch(pod, Respond(uid, pod).patch).value;
            var r := Mutate(Review(Some(AdmissionRequest(uid, PodDecoded(pod')))));
            r.Succeeded? && r.body.ReviewBody? && r.body.response.patch == [] && r.body.response.patchType == None
  {
    Idempotent(uid, pod);
  }

  // Worked scenarios: a Pod annotated with provider class "vault-prod".

  const App := Container("app", [])

  const Sidecar := Container("sidecar", [])

  function Annotated(container: Option<string>): map<string, string> {
    match container
    case None => map[SecretClassAnnotation := "vault-prod"]
    case Some(name) => map[SecretClassAnnotation := "vault-prod", SecretContainerAnnotation := name]
  }

  /** With a class and neither item present, the patch is the volume op, then the target's mount op. */
  lemma FullPatch(uid: string, pod: Pod)
    requires SecretClass(pod) != ""
    requires !NamedVolume(pod.volumes, StoreName) && !TargetMounted(pod.containers, Target(pod))
    ensures Respond(uid, pod).patch == [VolumeOp(SecretClass(pod)), MountOp(Target(pod))]
  {
  }

  /** The annotations of the scenarios read back as written. */
  lemma AnnotatedReads(pod: Pod, container: Option<string>)
    requires pod.annotations == Annotated(container)
    ensures SecretClass(pod) == "vault-prod"
    ensures Annotation(pod, SecretContainerAnnotation) == if container.Some? then container.value else ""
  {
    assert SecretClassAnnotation != SecretContainerAnnotation by {
      assert SecretClassAnnotation[21] != SecretContainerAnnotation[21];
    }
  }

  /** The mount paths of the scenarios, as `%d` writes them. */
  lemma ScenarioPaths()
    ensures MountsPath(0) == "/spec/containers/0/volumeMounts/-"
    ensures MountsPath(1) == "/spec/containers/1/volumeMounts/-"
  {
    PathFor(0, "0");
    PathFor(1, "1");
  }

  lemma PathFor(i: nat, digits: string)
    requires FromNat(i) == digits
    ensures MountsPath(i) == ContainersPrefix + digits + MountsSuffix
  {
  }

  /** One container, no target annotation: the volume and a mount on container 0. */
  lemma ScenarioSingleContainer(uid: string)
    ensures Respond(uid, Pod(Annotated(None), [], [App])).patch
            == [VolumeOp("vault-prod"), MountOp(0)]
    ensures MountsPath(0) == "/spec/containers/0/volumeMounts/-"
  {
    var pod := Pod(Annotated(None), [], [App]);
    assert SecretClass(pod) == "vault-prod" && Target(pod) == 0 by {
      AnnotatedReads(pod, None);
    }
    FullPatch(uid, pod);
    ScenarioPaths();
  }

  /** A named target container gets the mount at its own index. */
  lemma ScenarioNamedContainer(uid: string)
    ensures Respond(uid, Pod(Annotated(Some("app")), [], [Sidecar, App])).patch
            == [VolumeOp("vault-prod"), MountOp(1)]
    ensures MountsPath(1) == "/spec/containers/1/volumeMounts/-"
  {
    var cs := [Sidecar, App];
    var pod := Pod(Annotated(Some("app")), [], cs);
    assert SecretClass(pod) == "vault-prod" && Target(pod) == 1 by {
      AnnotatedReads(pod, Some("app"));
      assert Matches(cs, "app", 1) && !Matches(cs, "app", 0);
    }
    FullPatch(uid, pod);
    ScenarioPaths();
  }

  /** A target annotation naming no container silently falls back to container 0. */
  lemma ScenarioUnknownContainer(uid: string)
    ensures Respond(uid, Pod(Annotated(Some("nonexistent")), [], [Sidecar, App])).patch
            == [VolumeOp("vault-prod"), MountOp(0)]
  {
    var cs := [Sidecar, App];
    var pod := Pod(Annotated(Some("nonexistent")), [], cs);
    assert SecretClass(pod) == "vault-prod" && Target(pod) == 0 by {
      AnnotatedReads(pod, Some("nonexistent"));
      assert !Matches(cs, "nonexistent", 0) && !Matches(cs, "nonexistent", 1);
    }
    FullPatch(uid, pod);
  }

  /**
   * A Pod already carrying a volume and a target mount named `secret-store`
   * gets no patch, whatever the class, the volume's source and the mount's
   * path and read-only flag.
   */
  lemma ScenarioAlreadyPatched(uid: string, secretClass: string, source: VolumeSource, path: string, readOnly: bool)
    ensures var pod := Pod(map[SecretClassAnnotation := secretClass],
                           [PodVolume(StoreName, source)],
                           [Container("app", [VolumeMount(StoreName, path, readOnly)])]);
            var r := Respond(uid, pod);
            r.allowed && r.patch == [] && r.patchType == None
  {
    var pod := Pod(map[SecretClassAnnotation := secretClass],
                   [PodVolume(StoreName, source)],
                   [Container("app", [VolumeMount(StoreName, path, readOnly)])]);
    assert pod.volumes[0].name == StoreName;
    assert pod.containers[0].volumeMounts[0].name == StoreName;
  }
}

=== FILE: patch_apply.dfy ===
/**
 * JSON Patch `add` (section 4.1 of RFC 6902) applied to the Pod model, for
 * the two targets the engine addresses: appending to `/spec/volumes` and
 * appending to one container's `volumeMounts`. Any other operation fails,
 * and a patch is applied atomically: one failing operation fails it all.
 */
module PatchApply {
  import opened Wrappers
  import opened Decimal
  import opened Admission

  const AddOp := "add"
  const VolumesPath := "/spec/volumes/-"
  const ContainersPrefix := "/spec/containers/"
  const MountsSuffix := "/volumeMounts/-"

  /** The pointer to the end of container `i`'s mounts, written with `%d`. */
  function MountsPath(i: nat): (p: string)
    ensures |p| > |VolumesPath| && |p| > |ContainersPrefix| + |MountsSuffix|
    ensures p[..|ContainersPrefix|] == ContainersPrefix
    ensures p[|p| - |MountsSuffix|..] == MountsSuffix
    ensures IsIndexText(p[|ContainersPrefix|..|p| - |MountsSuffix|])
  {
    var p := ContainersPrefix + FromNat(i) + MountsSuffix;
    assert p[|ContainersPrefix|..|p| - |MountsSuffix|] == FromNat(i);
    p
  }

  /** The container index a mounts pointer addresses, if it is one. */
  function MountsPathIndex(path: string): Option<nat>
  {
    if |path| >= |ContainersPrefix| + |MountsSuffix|
       && path[..|ContainersPrefix|] == ContainersPrefix
       && path[|path| - |MountsSuffix|..] == MountsSuffix
    then ToNat(path[|ContainersPrefix|..|path| - |MountsSuffix|])
    else None
  }

  /** Every mounts pointer the engine writes addresses exactly the index it was built from. */
  lemma MountsPathRoundTrip(i: nat)
    ensures MountsPathIndex(MountsPath(i)) == Some(i)
    ensures MountsPath(i) != VolumesPath
  {
    var digits := FromNat(i);
    var p := ContainersPrefix + digits + MountsSuffix;
    assert p[..|ContainersPrefix|] == ContainersPrefix;
    assert p[|p| - |MountsSuffix|..] == MountsSuffix;
    assert p[|ContainersPrefix|..|p| - |MountsSuffix|] == digits;
    ToNatFromNat(i);
  }

  /** Conversely, a pointer read as index `i` is exactly the pointer written for `i`. */
  lemma MountsPathCanonical(path: string)
    ensures MountsPathIndex(path).Some? ==> MountsPath(MountsPathIndex(path).value) == path
  {
    if MountsPathIndex(path).Some? {
      var digits := path[|ContainersPrefix|..|path| - |MountsSuffix|];
      FromNatToNat(digits);
      assert path == path[..|ContainersPrefix|] + digits + path[|path| - |MountsSuffix|..];
    }
  }

  function AppendMount(c: Container, m: VolumeMount): Container {
    c.(volumeMounts := c.volumeMounts + [m])
  }

  /** Applies one operation; `None` when RFC 6902 (or the Pod schema) would reject it. */
  function ApplyOp(pod: Pod, op: PatchOp): (r: Option<Pod>)
    ensures r.Some? ==> r.value.annotations == pod.annotations
    ensures r.Some? ==> |r.value.containers| == |pod.containers|
    ensures r.Some? ==> forall i :: 0 <= i < |pod.containers| ==> r.value.containers[i].name == pod.containers[i].name
    ensures r.Some? ==> pod.volumes <= r.value.volumes
    ensures r.Some? ==> forall i :: 0 <= i < |pod.containers| ==> pod.containers[i].volumeMounts <= r.value.containers[i].volumeMounts
  {
    if op.op != AddOp then None
    else if op.path == VolumesPath then
      match op.value
      case VolumeValue(v) => Some(pod.(volumes := pod.volumes + [PodVolume(v.name, CsiSource(v.csi))]))
      case MountValue(_) => None
    else
      match MountsPathIndex(op.path)
      case None => None
      case Some(i) =>
        if i < |pod.containers| then
          match op.value
          case MountValue(m) => Some(pod.(containers := pod.containers[i := AppendMount(pod.containers[i], m)]))
          case VolumeValue(_) => None
        else None
  }

  /** Applies the operations in order; the whole patch fails if any operation fails. */
  function ApplyPatch(pod: Pod, ops: seq<PatchOp>): Option<Pod>
    decreases |ops|
  {
    if |ops| == 0 then Some(pod)
    else match ApplyOp(pod, ops[0])
      case None => None
      case Some(next) => ApplyPatch(next, ops[1..])
  }
}

=== FILE: wrappers.dfy ===
/** Optional values: the model's stand-in for Go's nil pointers and absent fields. */
module Wrappers {

  datatype Option<+T> = None | Some(value: T)
}
